=== FILE: README.md ===
# Bayesian vs. signal-detection decisions — a Dafny model

This project models two parts of a study of perceptual decisions.

**The Bayesian decision agent (`bdt_v_sdt.py`).**
- Each category id names a univariate Gaussian.
- The agent is shown a pair of ids. A category's success probability is P[X < T], the Gaussian CDF at the threshold T.
- That probability is *tempered* with the inverse temperature α: p^α / (p^α + (1−p)^α).
- The tempered probability is combined with the category's (success, failure) reward pair, each reward raised to the power β, to give an expected utility.
- The two utilities are normalised into a posterior over the pair.
- The agent returns a choice and a confidence score. The choice is the arg-max of the posterior, or a sample from it when `soft`. The confidence metric is the entropy, MAP or difference metric.

**The signal-detection pipeline (`pw_bdt/`).**
- `z_transform` clamps a rate of exactly 0 or 1 by `correction / n`, then applies `norm.ppf`.
- d′ = z(hit rate) − z(false-alarm rate), per group of trials.
- meta-d′ averages the z-differences of the high-confidence shares of the four outcome cells.
- Two scripts compute d′ and two compute meta-d′. Both meta-d′ docstrings code confidence as 1 (low) or 2 (high). `meta_dprime_per_subject_per_session.py` counts r2 == 2, as documented. `sensitivity_fits.py` counts r2 == 1 under "High Conf" comments, so by its own docstring it uses the low-confidence trials.

## How the model is built

**Numbers and transcendental functions.**
- All arithmetic is over Dafny `real`.
- `math.erf`, `math.sqrt`, `**`, `math.log` and `norm.ppf` are parameters: the `MathLib` record and a `ppf` argument.
- The ghost predicates in `RealMath` state the facts the proofs use: erf is odd, strictly increasing, 0 at 0 and bounded by ±1; a positive number has a positive root; x^1 = x, x^0 = 1, 1^y = 1, 0^y = 0 for y > 0 and positive bases give positive powers; ln 1 = 0, ln ½ = −ln 2 and ln 2 > 0; ppf(½) = 0, and ppf is strictly increasing on (0, 1).
- `RealMath.StandInIsLawful` exhibits functions that satisfy all the `Lawful` predicates at once, and `RealMath.PpfStandInIsLawful` a function that satisfies both ppf laws, so all these laws are consistent.

**Exceptions and dicts.**
- Every Python exception the core can raise over exact real arithmetic is an `Err` of `Results.Result`. These are: the invalid model tag, sigma ≤ 0, an unknown id (KeyError), a pair of the wrong length, division by zero, a missing second sorted value, the max of an empty list, and the log of 0. Failures that come from the power operator or from floating point are listed under "Left out": `0.0 ** negative` (ZeroDivisionError), overflow in `**` (OverflowError), underflow in `_tempered_prob` (ZeroDivisionError), and a negative reward raised to a non-integral beta, whose complex result makes `choose` raise TypeError.
- An insertion-ordered dict is a `seq<Entry>`.
- The random source is replaced by the uniform draw, which `Choose` takes as an argument.

**Modules.**
- `Results`, `RealMath`, `Gaussian`, `Distribution`, `ConfidenceScore` and `DecisionAgent` model the agent.
- `ZScore`, `TrialCounts`, `SensitivityFits`, `DPrimeSession` and `MetaDPrimeSession` model the pipeline.

## Model

| member | source | states |
|---|---|---|
| Gaussian.GaussianCdf | bdt_v_sdt.py:9-15 | Fails with the sigma error exactly when sigma ≤ 0. Otherwise the value is a probability in [0, 1], and it is exactly ½ when t equals the mean. |
| Gaussian.SuccessProb | bdt_v_sdt.py:24-27 | P[X < threshold] for the category: fails exactly when its sigma ≤ 0, is a probability otherwise, and is ½ at the mean. |
| Gaussian.CdfIncreasing | bdt_v_sdt.py:9-15 | Raising the threshold strictly raises the CDF value. |
| Gaussian.CdfDecreasingInMean | bdt_v_sdt.py:9-15 | Moving the mean up at a fixed threshold strictly lowers the CDF value. |
| Gaussian.CdfMirror | bdt_v_sdt.py:9-15 | Thresholds at mu − d and mu + d give CDF values that sum to 1. |
| DecisionAgent.ParseModel | bdt_v_sdt.py:66-68 | Accepts exactly the tags "map", "diff" and "entropy", and fails with the invalid-model error otherwise. The parsed model's tag is the input. |
| DecisionAgent.ParseModelName | bdt_v_sdt.py:66-68 | Every model's tag parses back to that model. |
| DecisionAgent.NewAgent | bdt_v_sdt.py:53-77 | Construction succeeds exactly for an allowed tag. An absent reward table becomes the empty one. Categories, threshold, beta, alpha and soft are stored unchanged. |
| DecisionAgent.DefaultAgent | bdt_v_sdt.py:53-77 | The defaults give an accepted agent with the entropy metric, threshold 0, beta 1, alpha 1, arg-max choice and no rewards. |
| DecisionAgent.TemperedProb | bdt_v_sdt.py:224-236 | p ≤ 0 gives exactly 0 and p ≥ 1 exactly 1. The result is always in [0, 1], strictly inside (0, 1) when p is, and equals p when alpha = 1. |
| DecisionAgent.TemperedComplement | bdt_v_sdt.py:224-236 | Tempering 1 − p gives 1 minus the tempered p, for every p and alpha. |
| DecisionAgent.TemperedSuccess | bdt_v_sdt.py:163-168 | The tempered success probability exists exactly for a registered id with positive sigma, and is a probability. |
| DecisionAgent.RewardOf | bdt_v_sdt.py:172 | A category's reward pair is its table entry, or (1, 0) when it has none. |
| DecisionAgent.ExpectedUtility | bdt_v_sdt.py:163-175 | An unknown id fails with the unknown-category error and sigma ≤ 0 with the sigma error. Otherwise the utility interpolates between w_fail^β and w_succ^β with weight p, the tempered success probability. |
| DecisionAgent.DefaultRewardUtility | bdt_v_sdt.py:163-175 | With no reward entry and any beta > 0, the utility is the tempered success probability. |
| DecisionAgent.BetaZeroUtilityIsOne | bdt_v_sdt.py:163-175 | With beta = 0, every usable category has utility 1. |
| DecisionAgent.PositiveRewardsPositiveUtility | bdt_v_sdt.py:163-175 | Positive rewards give a positive utility. |
| DecisionAgent.Utilities | bdt_v_sdt.py:102 | The utility dict succeeds exactly when both ids are usable, and the first failing id decides the error. Its keys are the pair's ids in order, a repeated id kept once. Each value is that key's expected utility. |
| Distribution.Total | bdt_v_sdt.py:103 | `sum(util.values())`: the values added in insertion order, starting from 0. The definition carries no ensures. |
| Distribution.TotalNonNegative | bdt_v_sdt.py:103 | Values that are all non-negative have a non-negative total. |
| DecisionAgent.Posterior | bdt_v_sdt.py:97-108 | A pair whose length is not 2 fails. Otherwise it succeeds exactly when both ids are usable, and a failure is the utilities' failure. The keys follow the pair. A nonzero total gives values that sum to 1; a zero total gives every key ½. |
| DecisionAgent.PosteriorProportional | bdt_v_sdt.py:102-108 | With a nonzero total, each posterior value is its key's utility divided by the total utility. |
| DecisionAgent.DistinctPairPosteriorSumsToOne | bdt_v_sdt.py:97-108 | Two distinct usable ids give a two-entry posterior that sums to 1, the zero-total fallback included. |
| DecisionAgent.PositiveRewardsPosteriorInside | bdt_v_sdt.py:97-108 | Two distinct usable ids whose rewards are all positive give a two-entry posterior whose values both lie strictly between 0 and 1. |
| DecisionAgent.NonNegativeRewardsUtility | bdt_v_sdt.py:172-175 | Non-negative rewards and beta > 0, the default (1, 0) included, give a non-negative utility. |
| DecisionAgent.NonNegativeRewardsPosteriorInUnitRange | bdt_v_sdt.py:97-108 | Two distinct usable ids with non-negative rewards and beta > 0 give a two-entry posterior whose values both lie in [0, 1], the zero-total fallback included. This covers the default reward (1, 0). |
| Distribution.NormaliseTwoInUnitRange | bdt_v_sdt.py:103-108 | Normalising two non-negative values, with a fallback in [0, 1], gives two values in [0, 1]. |
| DecisionAgent.RepeatedIdPosterior | bdt_v_sdt.py:99-108 | The pair (a, a) is not rejected. It gives the one-key posterior {a: 1}, or {a: ½} when a's utility is 0. |
| DecisionAgent.IdenticalCategoriesSplitEvenly | bdt_v_sdt.py:97-108 | Two distinct ids with equal Gaussians and equal rewards get ½ each. |
| DecisionAgent.BetaZeroPosteriorUniform | bdt_v_sdt.py:97-108 | With beta = 0, any two distinct usable ids get ½ each. |
| DecisionAgent.Choose | bdt_v_sdt.py:80-95 | Succeeds exactly when the posterior and its confidence both succeed. The confidence is the configured metric of the posterior. The choice is an id of the pair. Without `soft` the choice sits at the first maximal posterior position; with `soft`, at the position the draw selects. |
| DecisionAgent.ChooseRejectsRepeatedId | bdt_v_sdt.py:80-108 | `choose` on (a, a) always fails, because no metric accepts a one-key posterior. |
| DecisionAgent.ChooseSucceedsExactly | bdt_v_sdt.py:80-108 | `choose` succeeds if and only if the pair has two distinct usable ids. |
| DecisionAgent.LowerMeanFavoured | bdt_v_sdt.py:97-108 | With equal sigma, default rewards, any beta > 0 and alpha = 1, the lower-mean category gets the strictly larger posterior value. |
| DecisionAgent.LowerMeanIsChosen | bdt_v_sdt.py:80-95 | In that setting, arg-max choice picks the lower-mean category, whatever its position in the pair. |
| DecisionAgent.SoftChoiceFirstWhenDrawBelow | bdt_v_sdt.py:214-222 | With soft choice, a draw at most the first posterior value picks the pair's first id. |
| Distribution.Normalise | bdt_v_sdt.py:103-108 | Keys and order are kept. A zero total gives every key the fallback value. Otherwise the values sum to 1 and each is its input divided by the total. |
| Distribution.TotalScale | bdt_v_sdt.py:103-108 | Dividing every value by c divides the sum by c. |
| Distribution.FirstMax | bdt_v_sdt.py:91 | Returns the position of a maximal value with only strictly smaller values before it, matching `max(post, key=post.get)` on ties. |
| Distribution.FirstMaxUnique | bdt_v_sdt.py:91 | That position is unique. |
| Distribution.SampleFrom | bdt_v_sdt.py:214-222 | Returns the first entry whose running sum reaches the draw, or the last entry when none does. |
| Distribution.SampledUnique | bdt_v_sdt.py:214-222 | The sampled position is unique. |
| Distribution.SampleFirstWhenBelow | bdt_v_sdt.py:214-222 | A draw at most the first value selects the first entry. |
| Distribution.SampleReachesDraw | bdt_v_sdt.py:214-222 | For a draw at most the total, the returned entry's running sum reaches the draw, so the fallback is never reached for a reason other than the draw. |
| ConfidenceScore.MaxOf | bdt_v_sdt.py:206 | `max` of a non-empty list is an element of it and bounds every element. |
| ConfidenceScore.RemoveFirst | bdt_v_sdt.py:209-211 | Removing one copy of x leaves the multiset with x taken out. |
| ConfidenceScore.NegEntropy | bdt_v_sdt.py:200 | Σ p·ln p over the values in insertion order, skipping every value that is not positive. A list with no positive value sums to 0. |
| ConfidenceScore.EntropyConfidence | bdt_v_sdt.py:198-204 | Succeeds exactly when the posterior is non-empty and ln N ≠ 0. An empty posterior is the log-domain error; ln N = 0 is the division error. |
| ConfidenceScore.MapConfidence | bdt_v_sdt.py:205-207 | Succeeds exactly with at least two entries: none is the empty-max error, one is the division error. |
| ConfidenceScore.DiffConfidence | bdt_v_sdt.py:208-212 | Succeeds exactly with at least two entries, and is then non-negative. Fewer entries give the index error. |
| ConfidenceScore.DiffConfidenceInUnitRange | bdt_v_sdt.py:194-196 | On a posterior with at least two entries whose values all lie in [0, 1], the difference metric lies in [0, 1]. |
| ConfidenceScore.Confidence | bdt_v_sdt.py:192-212 | The configured metric's success condition: non-empty with ln N ≠ 0 for entropy, at least two entries otherwise. |
| ConfidenceScore.EntropyOfPair | bdt_v_sdt.py:198-204 | On two entries the entropy metric is 1 + (p·ln p + q·ln q) / ln 2, leaving out entries whose probability is not positive. It fails with division by zero when ln 2 = 0. |
| ConfidenceScore.MapOfPair | bdt_v_sdt.py:205-207 | On two entries the MAP metric is 2·max(p, q) − 1. |
| ConfidenceScore.DiffOfPair | bdt_v_sdt.py:208-212 | On two entries the difference metric is \|p − q\|. |
| ConfidenceScore.MapAndDiffAgree | bdt_v_sdt.py:205-212 | On two entries summing to 1, MAP and difference both give \|p − q\|. |
| ConfidenceScore.ConfidenceSymmetric | bdt_v_sdt.py:192-212 | Every metric gives the same result when the two entries are swapped. |
| ConfidenceScore.EntropyUniformIsZero | bdt_v_sdt.py:194-204 | The entropy metric gives 0 on {a: ½, b: ½}. |
| ConfidenceScore.EntropyDeltaIsOne | bdt_v_sdt.py:194-204 | The entropy metric gives 1 on {a: 1, b: 0}. |
| ConfidenceScore.SingleEntryRejected | bdt_v_sdt.py:192-212 | No metric accepts a one-entry posterior. |
| ConfidenceScore.TwoEntriesAccepted | bdt_v_sdt.py:192-212 | Every metric accepts a two-entry posterior. |
| ZScore.PpfArgument | pw_bdt/helpers/utils.py:4-9 | Fails with division by zero exactly when n = 0 and p is 0 or 1. Otherwise p = 1 becomes 1 − correction/n, p = 0 becomes correction/n, and every other p passes through unchanged. |
| ZScore.ZTransform | pw_bdt/helpers/utils.py:4-10 | Succeeds exactly when the clamping does, and is then ppf of the clamped rate. |
| ZScore.PpfArgumentInside | pw_bdt/helpers/utils.py:4-10 | For a rate in [0, 1], n ≥ 1 and 0 < correction < n, the value given to ppf is strictly inside (0, 1). |
| ZScore.DefaultCorrectionInside | pw_bdt/helpers/utils.py:4 | With the default correction ½, a single trial already keeps the ppf argument strictly inside (0, 1). |
| ZScore.ChanceRateIsZero | pw_bdt/helpers/utils.py:4-10 | The chance rate ½ has z-score 0 for every n. |
| TrialCounts.CountStimulus | pw_bdt/sensitivity_fits.py:17-22 | `(stim == s).sum()`, n_signal for s = 1 and n_noise for s = 0: the number of trials with that stimulus, never more than the group's size. |
| TrialCounts.CountOutcome | pw_bdt/sensitivity_fits.py:15-22 | A stimulus/response count never exceeds the count of that stimulus. |
| TrialCounts.CountConfident | pw_bdt/sensitivity_fits.py:48-51 | A high-confidence count never exceeds its outcome cell. |
| TrialCounts.Rate | pw_bdt/sensitivity_fits.py:26-27 | With no trials the rate is ½. Otherwise rate·n = k, and the rate is in [0, 1]: 0 exactly when k = 0, 1 exactly when k = n. |
| TrialCounts.OutcomesPartitionBinaryTrials | pw_bdt/sensitivity_fits.py:53-56 | The four outcome cells together count exactly the trials coded 0/1 on stimulus and response. |
| TrialCounts.CountMeta | pw_bdt/sensitivity_fits.py:48-56 | Each high-confidence count is within its cell, and the cells sum to the binary trials. |
| TrialCounts.SwapKeepsOutcomes | pw_bdt/meta_dprime_per_subject_per_session.py:26-29 | Exchanging confidence codes 1 and 2 leaves every outcome cell unchanged. |
| TrialCounts.SwapExchangesCodes | pw_bdt/meta_dprime_per_subject_per_session.py:20-23 | After the exchange, the count under one code equals the count under the other code before it. |
| SensitivityFits.HitRate | pw_bdt/sensitivity_fits.py:15-26 | The hit rate is in [0, 1], and ½ with no signal trials. |
| SensitivityFits.FalseAlarmRate | pw_bdt/sensitivity_fits.py:20-27 | The false-alarm rate is in [0, 1], and ½ with no noise trials. |
| SensitivityFits.DPrimeTransformsSucceed | pw_bdt/sensitivity_fits.py:26-30 | Neither z_transform call of compute_dprime divides by zero. |
| SensitivityFits.DPrimeArgumentsInside | pw_bdt/sensitivity_fits.py:26-30 | Both values passed to ppf are strictly inside (0, 1). |
| SensitivityFits.DPrime | pw_bdt/sensitivity_fits.py:6-32 | A group with neither signal nor noise trials has d′ = 0. |
| SensitivityFits.DPrimeSign | pw_bdt/sensitivity_fits.py:26-32 | d′ > 0 exactly when the clamped hit rate exceeds the clamped false-alarm rate, and d′ = 0 exactly when they are equal. |
| SensitivityFits.DPrimeFollowsRates | pw_bdt/sensitivity_fits.py:26-32 | With both rates strictly inside (0, 1): d′ > 0 exactly when hits are more frequent than false alarms, and d′ = 0 exactly when the rates are equal. |
| SensitivityFits.RateArgumentInside | pw_bdt/sensitivity_fits.py:59-67 | A conditional rate with the ½ fallback never divides by zero in z_transform, and its ppf argument is strictly inside (0, 1). |
| SensitivityFits.ConditionalZ | pw_bdt/sensitivity_fits.py:59-67 | An empty outcome cell has z-score 0. |
| SensitivityFits.MetaDPrime | pw_bdt/sensitivity_fits.py:34-71 | A group with no binary-coded trials has meta-d′ = 0. |
| DPrimeSession.DPrime | pw_bdt/dprime_per_subject_per_session.py:6-32 | A group with neither signal nor noise trials has d′ = 0. |
| DPrimeSession.AgreesWithSensitivityFits | pw_bdt/dprime_per_subject_per_session.py:6-32 | The per-session d′ equals the sensitivity script's d′ on every group. |
| MetaDPrimeSession.MetaDPrime | pw_bdt/meta_dprime_per_subject_per_session.py:6-44 | A group with no binary-coded trials has meta-d′ = 0. |
| MetaDPrimeSession.MatchesSensitivityFitsWithCodesSwapped | pw_bdt/meta_dprime_per_subject_per_session.py:6-44 | The per-session meta-d′ of a group equals the sensitivity script's meta-d′ of the same group with codes 1 and 2 exchanged. The scripts differ only in the high-confidence code; their two groupings of the z-scores agree. |

## Where the documented behaviour and the code differ

The model follows the code in each case.

- **beta = 0.** The class docstring calls this setting "risk-neutral expected reward" (bdt_v_sdt.py:46). The code instead raises both rewards to the power 0, so every usable category has utility 1 whatever its rewards and success probability. The posterior is then uniform over distinct ids (`DecisionAgent.BetaZeroUtilityIsOne`, `DecisionAgent.BetaZeroPosteriorUniform`).
- **A repeated id.** `posterior` does not reject the pair (a, a); it returns a one-key dict. `choose` on such a pair always fails, because every confidence metric raises on one entry: ln 1 = 0 for entropy, N − 1 = 0 for MAP, and no second value for the difference metric (`DecisionAgent.ChooseRejectsRepeatedId`).
- **The high-confidence code in `sensitivity_fits.py`.** Its `compute_meta_dprime` docstring codes confidence as 1 (low) or 2 (high) (pw_bdt/sensitivity_fits.py:41). Its code counts r2 == 1 under "High Conf" comments (pw_bdt/sensitivity_fits.py:48-51), so it builds meta-d′ from the trials its docstring calls low confidence. `meta_dprime_per_subject_per_session.py` counts r2 == 2, in line with the same docstring. Each module keeps its own script's constant. `MetaDPrimeSession.MatchesSensitivityFitsWithCodesSwapped` proves that the two functions differ by exactly this exchange of codes.

## Left out

**Functions of the original.**
- `visualize_pair` and the `verbose` flag: the verbose plotting is left out. As written it does not work: with `verbose=True`, `choose` calls `visualize_pair` (bdt_v_sdt.py:84-85), which calls `plot_bar_from_probs` (bdt_v_sdt.py:154). That name is neither defined nor imported in the file, so `choose` raises NameError instead of returning. The model describes `choose` with `verbose` off.
- `_raw`: a helper that nothing in the decision path calls.
- `_neg_entropy`: an unused static method; `_confidence` recomputes the same sum inline, as `ConfidenceScore.NegEntropy`.
- The `__main__` block of `bdt_v_sdt.py` and the `main` functions of the `pw_bdt` scripts: CSV reading, pandas grouping, the m-ratio, plotting and file output are I/O around the modelled computations.
- The MCMC fitting scripts: they are not part of this model.
- `random.Random`: replaced by the draw argument of `DecisionAgent.Choose`.

**Numerics.**
- Floating point: every computation is over exact reals. IEEE rounding, `inf`/`nan` and numpy's silent division by zero are not modelled.
- Exceptions of the power operator: `0.0 ** negative` raises ZeroDivisionError and a large `**` raises OverflowError. A reward of 0 with beta < 0 would reach the first of these in `_expected_utility`. Neither is modelled, because the pow laws describe exact real powers only.
- DecisionAgent.ChooseSucceedsExactly: does not cover complex powers, and neither does DecisionAgent.ExpectedUtility. A negative reward raised to a non-integral beta (for example `(-1.0) ** 0.5` at bdt_v_sdt.py:175) gives a complex number in Python 3, not an exception. The posterior then holds complex values, and `choose` raises TypeError when it compares them: in `max` (:91), in `r <= acc` (:220), and in every confidence metric (:200, :206, :210). The model's `pow` returns a real, so it does not represent this case. For such rewards `ChooseSucceedsExactly` claims success where the source fails.
- Underflow in `_tempered_prob`: when p^α and (1 − p)^α both underflow to 0.0, the division at bdt_v_sdt.py:236 raises ZeroDivisionError. Over exact reals both powers are positive, so `DecisionAgent.TemperedProb` never divides by zero.
- A zero denominator inside `z_transform`, which numpy would turn into `inf`, is modelled as the division error. The callers never trigger it (`SensitivityFits.RateArgumentInside`).
- The transcendental functions are parameters constrained only by the laws in `RealMath`. Properties that need more of them, such as the exact numerical values of Φ, are not stated.

**Weaker or partial contracts.**
- ConfidenceScore.EntropyConfidence: the [0, 1] range the docstring promises is proved only at its two end points (uniform and degenerate two-entry posteriors). The general bound needs Gibbs' inequality, which the abstract ln laws do not give.
- ConfidenceScore.MapConfidence: for two entries summing to 1 its value is proved to equal |p − q|; no general range is stated.
- Distribution.FirstMax: defined on non-empty dicts only. `choose` never reaches it with an empty posterior, since a successful posterior always has at least one key.
- Distribution.SampleFrom: defined on non-empty dicts only, for the same reason; on an empty dict the original would hit an unbound variable.
- DecisionAgent.Choose: a string-keyed dict is modelled with integer ids. Only equality of ids matters to the computation.

=== FILE: confidence.dfy ===
/** The three confidence metrics of `_confidence`, each mapping a posterior to
    a score that is 0 for a uniform and 1 for a degenerate two-entry
    posterior. */
module ConfidenceScore {
  import opened Results
  import opened RealMath
  import opened Distribution

  datatype ConfidenceModel = EntropyModel | MapModel | DiffModel

  function Values(s: seq<Entry>): (vs: seq<real>)
    ensures |vs| == |s|
    ensures forall i :: 0 <= i < |s| ==> vs[i] == s[i].prob
  {
    seq(|s|, i requires 0 <= i < |s| => s[i].prob)
  }

  /** max() of a non-empty list of floats. */
  function MaxOf(vs: seq<real>): (m: real)
    requires |vs| > 0
    ensures m in vs
    ensures forall i :: 0 <= i < |vs| ==> vs[i] <= m
  {
    if |vs| == 1 then vs[0]
    else
      var m := MaxOf(vs[1..]);
      assert forall i :: 1 <= i < |vs| ==> vs[i] == vs[1..][i - 1];
      if vs[0] < m then m else vs[0]
  }

  /** The list with its first occurrence of x removed. */
  function RemoveFirst(vs: seq<real>, x: real): (r: seq<real>)
    requires x in vs
    ensures |r| == |vs| - 1
    ensures multiset(r) + multiset{x} == multiset(vs)
  {
    if vs[0] == x then
      assert vs == [vs[0]] + vs[1..];
      vs[1..]
    else
      assert vs == [vs[0]] + vs[1..];
      [vs[0]] + RemoveFirst(vs[1..], x)
  }

  /** Σ p·ln p over the values with p > 0: values that are not positive
      add nothing, whatever ln is. */
  function NegEntropy(ln: real -> real, vs: seq<real>): (r: real)
    ensures (forall i :: 0 <= i < |vs| ==> vs[i] <= 0.0) ==> r == 0.0
  {
    if |vs| == 0 then 0.0
    else (if 0.0 < vs[0] then vs[0] * ln(vs[0]) else 0.0) + NegEntropy(ln, vs[1..])
  }

  /** 1 + (Σ p·ln p) / ln N. Fails when N = 0 (ln 0 is a domain error) and
      when ln N is 0, which ln 1 = 0 makes the case of one entry. */
  function EntropyConfidence(ln: real -> real, post: seq<Entry>): (r: Result<real>)
    ensures r.Ok? <==> 0 < |post| && ln(|post| as real) != 0.0
    ensures |post| == 0 ==> r == Err(MathDomain)
    ensures 0 < |post| && ln(|post| as real) == 0.0 ==> r == Err(ZeroDivision)
  {
    var ne := NegEntropy(ln, Values(post));
    var hmax := ln(|post| as real);
    if |post| == 0 then Err(MathDomain)
    else if hmax == 0.0 then Err(ZeroDivision)
    else Ok(1.0 + ne / hmax)
  }

  /** (N·max − 1) / (N − 1): fails on an empty posterior (max of nothing)
      and on one entry (division by 0). */
  function MapConfidence(post: seq<Entry>): (r: Result<real>)
    ensures r.Ok? <==> 2 <= |post|
    ensures |post| == 0 ==> r == Err(EmptySequence)
    ensures |post| == 1 ==> r == Err(ZeroDivision)
  {
    var n := |post| as real;
    if |post| == 0 then Err(EmptySequence)
    else if |post| == 1 then Err(ZeroDivision)
    else Ok((n * MaxOf(Values(post)) - 1.0) / (n - 1.0))
  }

  /** The first minus the second value of the descending sort: the maximum
      minus the maximum of what remains once one copy of it is taken out.
      Fails with fewer than two entries. */
  function DiffConfidence(post: seq<Entry>): (r: Result<real>)
    ensures r.Ok? <==> 2 <= |post|
    ensures r.Err? ==> r.error == IndexOutOfRange
    ensures r.Ok? ==> 0.0 <= r.value
  {
    if |post| < 2 then Err(IndexOutOfRange)
    else
      var vs := Values(post);
      var top := MaxOf(vs);
      var rest := RemoveFirst(vs, top);
      var second := MaxOf(rest);
      assert second in multiset(vs) by {
        assert second in multiset(rest);
      }
      Ok(top - second)
  }

  /** On a posterior whose values are probabilities the difference metric
      lies in [0, 1]: the largest value is at most 1 and the second largest,
      one of the values, is at least 0. */
  lemma DiffConfidenceInUnitRange(post: seq<Entry>)
    requires 2 <= |post|
    requires forall i :: 0 <= i < |post| ==> 0.0 <= post[i].prob <= 1.0
    ensures 0.0 <= DiffConfidence(post).value <= 1.0
  {
    var vs := Values(post);
    var top := MaxOf(vs);
    var rest := RemoveFirst(vs, top);
    var second := MaxOf(rest);
    assert second in multiset(vs) by {
      assert second in multiset(rest);
    }
    assert second in vs;
    assert top in vs;
  }

  /** The score of the configured metric. */
  function Confidence(ln: real -> real, model: ConfidenceModel, post: seq<Entry>): (r: Result<real>)
    ensures model == EntropyModel ==> (r.Ok? <==> 0 < |post| && ln(|post| as real) != 0.0)
    ensures model != EntropyModel ==> (r.Ok? <==> 2 <= |post|)
  {
    match model
    case EntropyModel => EntropyConfidence(ln, post)
    case MapModel => MapConfidence(post)
    case DiffModel => DiffConfidence(post)
  }

  function Abs(x: real): real {
    if x < 0.0 then -x else x
  }

  /** The two-entry posterior {a: p, b: q}. */
  function Pair(a: int, p: real, b: int, q: real): seq<Entry> {
    [Entry(a, p), Entry(b, q)]
  }

  lemma TwoValues(a: int, p: real, b: int, q: real)
    ensures Values(Pair(a, p, b, q)) == [p, q]
    ensures MaxOf([p, q]) == (if p < q then q else p)
    ensures RemoveFirst([p, q], MaxOf([p, q])) == (if p < q then [p] else [q])
  {
    var vs := [p, q];
    assert vs[1..] == [q];
    assert Values(Pair(a, p, b, q)) == vs;
  }

  lemma NegEntropyTwo(ln: real -> real, p: real, q: real)
    ensures NegEntropy(ln, [p, q]) == NegEntropy(ln, [p]) + NegEntropy(ln, [q])
  {
    assert [p, q][1..] == [q];
    assert [p][1..] == [] && [q][1..] == [];
  }

  /** On a two-entry posterior that sums to 1 the MAP and difference metrics
      agree, and both equal |p − q|. */
  lemma MapAndDiffAgree(ln: real -> real, a: int, p: real, b: int, q: real)
    requires p + q == 1.0
    ensures Confidence(ln, MapModel, Pair(a, p, b, q)) == Ok(Abs(p - q))
    ensures Confidence(ln, DiffModel, Pair(a, p, b, q)) == Ok(Abs(p - q))
  {
    MapOfPair(a, p, b, q);
    DiffOfPair(a, p, b, q);
  }

  /** On two entries the entropy metric is 1 + (p·ln p + q·ln q) / ln 2,
      the entries whose probability is not positive left out. */
  lemma EntropyOfPair(ln: real -> real, a: int, p: real, b: int, q: real)
    ensures EntropyConfidence(ln, Pair(a, p, b, q)) ==
      if ln(2.0) == 0.0 then Err(ZeroDivision)
      else Ok(1.0 + (NegEntropy(ln, [p]) + NegEntropy(ln, [q])) / ln(2.0))
  {
    TwoValues(a, p, b, q);
    NegEntropyTwo(ln, p, q);
  }

  lemma EntropySymmetric(ln: real -> real, a: int, p: real, b: int, q: real)
    ensures EntropyConfidence(ln, Pair(a, p, b, q)) == EntropyConfidence(ln, Pair(b, q, a, p))
  {
    EntropyOfPair(ln, a, p, b, q);
    EntropyOfPair(ln, b, q, a, p);
  }

  /** On two entries the MAP metric is 2·max(p, q) − 1. */
  lemma MapOfPair(a: int, p: real, b: int, q: real)
    ensures MapConfidence(Pair(a, p, b, q)) == Ok(2.0 * (if p < q then q else p) - 1.0)
  {
    TwoValues(a, p, b, q);
  }

  /** On two entries the difference metric is |p − q|. */
  lemma DiffOfPair(a: int, p: real, b: int, q: real)
    ensures DiffConfidence(Pair(a, p, b, q)) == Ok(Abs(p - q))
  {
    TwoValues(a, p, b, q);
  }

  lemma MapSymmetric(a: int, p: real, b: int, q: real)
    ensures MapConfidence(Pair(a, p, b, q)) == MapConfidence(Pair(b, q, a, p))
  {
    MapOfPair(a, p, b, q);
    MapOfPair(b, q, a, p);
  }

  lemma DiffSymmetric(a: int, p: real, b: int, q: real)
    ensures DiffConfidence(Pair(a, p, b, q)) == DiffConfidence(Pair(b, q, a, p))
  {
    DiffOfPair(a, p, b, q);
    DiffOfPair(b, q, a, p);
  }

  /** Every metric ignores the order of the two entries. */
  lemma ConfidenceSymmetric(ln: real -> real, model: ConfidenceModel, a: int, p: real, b: int, q: real)
    ensures Confidence(ln, model, Pair(a, p, b, q)) == Confidence(ln, model, Pair(b, q, a, p))
  {
    match model
    case EntropyModel => EntropySymmetric(ln, a, p, b, q);
    case MapModel => MapSymmetric(a, p, b, q);
    case DiffModel => DiffSymmetric(a, p, b, q);
  }

  /** The entropy metric gives 0 on the uniform posterior {a: ½, b: ½}. */
  lemma EntropyUniformIsZero(ln: real -> real, a: int, b: int)
    requires LnLaws(ln)
    ensures Confidence(ln, EntropyModel, Pair(a, 0.5, b, 0.5)) == Ok(0.0)
  {
    TwoValues(a, 0.5, b, 0.5);
    NegEntropyTwo(ln, 0.5, 0.5);
    assert [0.5][1..] == [];
    assert NegEntropy(ln, [0.5, 0.5]) == -ln(2.0);
    assert -ln(2.0) / ln(2.0) == -1.0;
  }

  /** The entropy metric gives 1 on the degenerate posterior {a: 1, b: 0}. */
  lemma EntropyDeltaIsOne(ln: real -> real, a: int, b: int)
    requires LnLaws(ln)
    ensures Confidence(ln, EntropyModel, Pair(a, 1.0, b, 0.0)) == Ok(1.0)
  {
    TwoValues(a, 1.0, b, 0.0);
    NegEntropyTwo(ln, 1.0, 0.0);
    assert [1.0][1..] == [] && [0.0][1..] == [];
  }

  /** No metric accepts a one-entry posterior (ln 1 = 0 for entropy). */
  lemma SingleEntryRejected(ln: real -> real, model: ConfidenceModel, a: int, p: real)
    requires LnLaws(ln)
    ensures Confidence(ln, model, [Entry(a, p)]).Err?
  {
  }

  /** Every metric accepts a two-entry posterior (ln 2 > 0 for entropy). */
  lemma TwoEntriesAccepted(ln: real -> real, model: ConfidenceModel, a: int, p: real, b: int, q: real)
    requires LnLaws(ln)
    ensures Confidence(ln, model, Pair(a, p, b, q)).Ok?
  {
  }
}

=== FILE: decision_agent.dfy ===
/** The pairwise decision agent: expected utility from a tempered Gaussian
    success probability and reward shaping, normalisation into a posterior
    over the pair, a confidence score and an arg-max or sampled choice. */
module DecisionAgent {
  import opened Results
  import opened RealMath
  import opened Gaussian
  import opened Distribution
  import opened ConfidenceScore

  /** (reward_success, reward_failure) for one category. */
  datatype Reward = Reward(success: real, failure: real)

  /** The reward a category without an entry in the table receives. */
  const DefaultReward := Reward(1.0, 0.0)

  /** An agent after construction. The random source and the verbose
      plotting flag are not part of the model: the uniform draw is an
      argument of Choose instead. */
  datatype Agent = Agent(
    categories: map<int, Category>,
    rewards: map<int, Reward>,
    model: ConfidenceModel,
    threshold: real,
    beta: real,
    alpha: real,
    soft: bool
  )

  datatype Option<T> = None | Some(value: T)

  /** The result of one decision: the chosen id and the confidence score. */
  datatype Decision = Decision(choice: int, confidence: real)

  /** The tag each confidence model is selected by. */
  function ModelName(model: ConfidenceModel): string {
    match model
    case EntropyModel => "entropy"
    case MapModel => "map"
    case DiffModel => "diff"
  }

  /** The constructor's check of the model tag against {"map", "diff", "entropy"}. */
  function ParseModel(name: string): (r: Result<ConfidenceModel>)
    ensures r.Ok? <==> name in {"map", "diff", "entropy"}
    ensures r.Err? ==> r.error == InvalidModel
    ensures r.Ok? ==> ModelName(r.value) == name
  {
    if name == "map" then Ok(MapModel)
    else if name == "diff" then Ok(DiffModel)
    else if name == "entropy" then Ok(EntropyModel)
    else Err(InvalidModel)
  }

  /** Every model's tag is accepted and parses back to that model. */
  lemma ParseModelName(model: ConfidenceModel)
    ensures ParseModel(ModelName(model)) == Ok(model)
  {
  }

  /** DecisionAgent(...): fails unless the model tag is recognised; an absent
      reward table becomes the empty table; everything else is stored as
      given (no check on the categories, which fail only when used). */
  function NewAgent(
    categories: map<int, Category>,
    rewards: Option<map<int, Reward>> := None,
    model: string := "entropy",
    threshold: real := 0.0,
    beta: real := 1.0,
    alpha: real := 1.0,
    soft: bool := false
  ): (r: Result<Agent>)
    ensures r.Ok? <==> model in {"map", "diff", "entropy"}
    ensures r.Err? ==> r.error == InvalidModel
    ensures r.Ok? ==> ModelName(r.value.model) == model
    ensures r.Ok? ==> r.value.rewards == (if rewards.Some? then rewards.value else map[])
    ensures r.Ok? ==> r.value.categories == categories && r.value.soft == soft
    ensures r.Ok? ==> r.value.threshold == threshold && r.value.beta == beta && r.value.alpha == alpha
  {
    var m :- ParseModel(model);
    var table := if rewards.Some? then rewards.value else map[];
    Ok(Agent(categories, table, m, threshold, beta, alpha, soft))
  }

  /** The default configuration is accepted and selects the entropy metric,
      threshold 0, beta 1, alpha 1 and arg-max choice. */
  lemma DefaultAgent(categories: map<int, Category>)
    ensures NewAgent(categories).Ok?
    ensures NewAgent(categories).value == Agent(categories, map[], EntropyModel, 0.0, 1.0, 1.0, false)
  {
  }

  lemma SharesSumToOne(a: real, b: real)
    requires a + b != 0.0
    ensures a / (a + b) + b / (a + b) == 1.0
  {
    assert a / (a + b) + b / (a + b) == (a + b) / (a + b);
  }

  /** p^α / (p^α + (1 − p)^α), with p <= 0 giving exactly 0 and p >= 1
      exactly 1. */
  function TemperedProb(pow: (real, real) -> real, p: real, alpha: real): (r: real)
    requires PowLaws(pow)
    ensures p <= 0.0 ==> r == 0.0
    ensures 1.0 <= p ==> r == 1.0
    ensures 0.0 <= r <= 1.0
    ensures 0.0 < p < 1.0 ==> 0.0 < r < 1.0
    ensures 0.0 <= p <= 1.0 && alpha == 1.0 ==> r == p
  {
    if p <= 0.0 then 0.0
    else if 1.0 <= p then 1.0
    else
      var num := pow(p, alpha);
      var rest := pow(1.0 - p, alpha);
      assert 0.0 < num && 0.0 < rest;
      var den := num + rest;
      assert num / den < 1.0 by {
        SharesSumToOne(num, rest);
        assert 0.0 < rest / den;
      }
      num / den
  }

  /** Tempering treats success and failure alike: tempering 1 − p gives
      1 minus the tempered p. */
  lemma TemperedComplement(pow: (real, real) -> real, p: real, alpha: real)
    requires PowLaws(pow)
    ensures TemperedProb(pow, 1.0 - p, alpha) == 1.0 - TemperedProb(pow, p, alpha)
  {
    if 0.0 < p < 1.0 {
      var num, rest := pow(p, alpha), pow(1.0 - p, alpha);
      assert 1.0 - (1.0 - p) == p;
      assert 0.0 < num && 0.0 < rest;
      SharesSumToOne(num, rest);
      assert rest + num == num + rest;
    }
  }

  /** The tempered success probability of a registered category. */
  function TemperedSuccess(m: MathLib, agent: Agent, cid: int): (r: Result<real>)
    requires Lawful(m)
    ensures r.Ok? <==> cid in agent.categories && 0.0 < agent.categories[cid].sigma
    ensures r.Ok? ==> 0.0 <= r.value <= 1.0
  {
    if cid !in agent.categories then Err(UnknownCategory)
    else
      var raw :- SuccessProb(m, agent.categories[cid], agent.threshold);
      Ok(TemperedProb(m.pow, raw, agent.alpha))
  }

  /** The reward pair of a category, (1, 0) when the table has none. */
  function RewardOf(agent: Agent, cid: int): (w: Reward)
    ensures cid in agent.rewards ==> w == agent.rewards[cid]
    ensures cid !in agent.rewards ==> w == Reward(1.0, 0.0)
  {
    if cid in agent.rewards then agent.rewards[cid] else DefaultReward
  }

  /** p·w_succ^β + (1 − p)·w_fail^β with p the tempered success probability.
      An unknown id fails with a KeyError and sigma <= 0 with a ValueError;
      otherwise the utility weighs the two rewards by p and 1 − p. */
  function ExpectedUtility(m: MathLib, agent: Agent, cid: int): (r: Result<real>)
    requires Lawful(m)
    ensures r.Ok? <==> cid in agent.categories && 0.0 < agent.categories[cid].sigma
    ensures cid !in agent.categories ==> r == Err(UnknownCategory)
    ensures cid in agent.categories && agent.categories[cid].sigma <= 0.0 ==> r == Err(InvalidSigma)
    ensures r.Ok? ==>
      var p := TemperedSuccess(m, agent, cid).value;
      var w := RewardOf(agent, cid);
      r.value - m.pow(w.failure, agent.beta) == p * (m.pow(w.success, agent.beta) - m.pow(w.failure, agent.beta))
  {
    var pSucc :- TemperedSuccess(m, agent, cid);
    var pFail := 1.0 - pSucc;
    var w := RewardOf(agent, cid);
    Ok(pSucc * m.pow(w.success, agent.beta) + pFail * m.pow(w.failure, agent.beta))
  }

  /** With the default reward (1, 0) and any beta > 0 the utility is the
      tempered success probability itself: 1^β = 1 and 0^β = 0. */
  lemma DefaultRewardUtility(m: MathLib, agent: Agent, cid: int)
    requires Lawful(m) && cid !in agent.rewards && 0.0 < agent.beta
    requires cid in agent.categories && 0.0 < agent.categories[cid].sigma
    ensures ExpectedUtility(m, agent, cid) == TemperedSuccess(m, agent, cid)
  {
  }

  /** With beta = 0 both reward terms become 1, so every registered category
      has utility exactly 1 whatever its rewards and success probability. */
  lemma BetaZeroUtilityIsOne(m: MathLib, agent: Agent, cid: int)
    requires Lawful(m) && agent.beta == 0.0
    requires cid in agent.categories && 0.0 < agent.categories[cid].sigma
    ensures ExpectedUtility(m, agent, cid) == Ok(1.0)
  {
  }

  /** Positive rewards give a positive utility. */
  lemma PositiveRewardsPositiveUtility(m: MathLib, agent: Agent, cid: int)
    requires Lawful(m)
    requires cid in agent.categories && 0.0 < agent.categories[cid].sigma
    requires 0.0 < RewardOf(agent, cid).success && 0.0 < RewardOf(agent, cid).failure
    ensures 0.0 < ExpectedUtility(m, agent, cid).value
  {
    var w := RewardOf(agent, cid);
    var p := TemperedSuccess(m, agent, cid).value;
    assert 0.0 < m.pow(w.success, agent.beta) && 0.0 < m.pow(w.failure, agent.beta);
    assert 0.0 <= p * m.pow(w.success, agent.beta);
    assert 0.0 <= (1.0 - p) * m.pow(w.failure, agent.beta);
  }

  /** A category the agent can compute a utility for. */
  predicate Usable(agent: Agent, cid: int) {
    cid in agent.categories && 0.0 < agent.categories[cid].sigma
  }

  /** The keys a dict comprehension over the pair produces: its ids in pair
      order, a repeated id kept once. */
  function PairKeys(pair: seq<int>): seq<int>
    requires |pair| == 2
  {
    if pair[0] == pair[1] then [pair[0]] else pair
  }

  /** {cid: EU(cid) for cid in pair}: utilities are computed in pair order,
      so the first failing id decides the error. */
  function Utilities(m: MathLib, agent: Agent, pair: seq<int>): (r: Result<seq<Entry>>)
    requires Lawful(m) && |pair| == 2
    ensures r.Ok? <==> Usable(agent, pair[0]) && Usable(agent, pair[1])
    ensures r.Err? ==> r.error == (if Usable(agent, pair[0])
                                   then ExpectedUtility(m, agent, pair[1]).error
                                   else ExpectedUtility(m, agent, pair[0]).error)
    ensures r.Ok? ==> Keys(r.value) == PairKeys(pair)
    ensures r.Ok? ==> forall i :: 0 <= i < |r.value| ==>
      r.value[i].prob == ExpectedUtility(m, agent, r.value[i].key).value
  {
    var ua :- ExpectedUtility(m, agent, pair[0]);
    var ub :- ExpectedUtility(m, agent, pair[1]);
    if pair[0] == pair[1] then Ok([Entry(pair[0], ub)])
    else Ok([Entry(pair[0], ua), Entry(pair[1], ub)])
  }

  /** posterior(pair): fails unless the pair has length 2, then divides each
      utility by their total; a total of exactly 0 gives every key 1/len(pair).
      Keys follow pair order, and distinctness is not checked. */
  function Posterior(m: MathLib, agent: Agent, pair: seq<int>): (r: Result<seq<Entry>>)
    requires Lawful(m)
    ensures |pair| != 2 ==> r == Err(InvalidPair)
    ensures |pair| == 2 ==> (r.Ok? <==> Usable(agent, pair[0]) && Usable(agent, pair[1]))
    ensures |pair| == 2 && r.Err? ==> r == Utilities(m, agent, pair)
    ensures r.Ok? ==> Keys(r.value) == PairKeys(pair)
    ensures r.Ok? ==>
      var util := Utilities(m, agent, pair).value;
      && (Total(util) != 0.0 ==> Total(r.value) == 1.0)
      && (Total(util) == 0.0 ==> forall i :: 0 <= i < |r.value| ==> r.value[i].prob == 0.5)
  {
    if |pair| != 2 then Err(InvalidPair)
    else
      var util :- Utilities(m, agent, pair);
      Ok(Normalise(util, 1.0 / |pair| as real))
  }

  /** Each posterior value is its key's share of the total utility. */
  lemma PosteriorProportional(m: MathLib, agent: Agent, pair: seq<int>, i: nat)
    requires Lawful(m)
    requires Posterior(m, agent, pair).Ok? && i < |Posterior(m, agent, pair).value|
    requires Total(Utilities(m, agent, pair).value) != 0.0
    ensures
      var post := Posterior(m, agent, pair).value;
      post[i].prob == ExpectedUtility(m, agent, post[i].key).value / Total(Utilities(m, agent, pair).value)
  {
    var util := Utilities(m, agent, pair).value;
    var post := Normalise(util, 1.0 / |pair| as real);
    assert Posterior(m, agent, pair).value == post;
    assert post[i].key == util[i].key;
    assert post[i].prob == util[i].prob / Total(util);
  }

  /** A pair of two distinct usable ids always yields a posterior that sums
      to 1, the zero-total fallback included. */
  lemma DistinctPairPosteriorSumsToOne(m: MathLib, agent: Agent, pair: seq<int>)
    requires Lawful(m) && |pair| == 2 && pair[0] != pair[1]
    requires Posterior(m, agent, pair).Ok?
    ensures |Posterior(m, agent, pair).value| == 2
    ensures Total(Posterior(m, agent, pair).value) == 1.0
  {
    var post := Posterior(m, agent, pair).value;
    assert |Keys(post)| == 2;
    assert post == [post[0], post[1]];
    TotalOfTwo(post[0], post[1]);
  }

  /** Two distinct usable ids whose rewards are all positive have positive
      utilities, so both posterior values are probabilities strictly
      between 0 and 1. */
  lemma PositiveRewardsPosteriorInside(m: MathLib, agent: Agent, a: int, b: int)
    requires Lawful(m) && a != b && Usable(agent, a) && Usable(agent, b)
    requires 0.0 < RewardOf(agent, a).success && 0.0 < RewardOf(agent, a).failure
    requires 0.0 < RewardOf(agent, b).success && 0.0 < RewardOf(agent, b).failure
    ensures Posterior(m, agent, [a, b]).Ok?
    ensures |Posterior(m, agent, [a, b]).value| == 2
    ensures forall i :: 0 <= i < 2 ==> 0.0 < Posterior(m, agent, [a, b]).value[i].prob < 1.0
  {
    PositiveRewardsPositiveUtility(m, agent, a);
    PositiveRewardsPositiveUtility(m, agent, b);
    var ua, ub := ExpectedUtility(m, agent, a).value, ExpectedUtility(m, agent, b).value;
    var util := [Entry(a, ua), Entry(b, ub)];
    assert Utilities(m, agent, [a, b]) == Ok(util);
    TotalOfTwo(util[0], util[1]);
    var total := ua + ub;
    var post := Normalise(util, 0.5);
    assert Posterior(m, agent, [a, b]) == Ok(post);
    assert post[0].prob == ua / total && post[1].prob == ub / total;
    assert 0.0 < ua / total < 1.0 by {
      QuotientMonotone(ua, total, total);
      assert total / total == 1.0;
    }
    assert 0.0 < ub / total < 1.0 by {
      QuotientMonotone(ub, total, total);
      assert total / total == 1.0;
    }
  }

  /** Non-negative rewards and beta > 0 give a non-negative utility: a zero
      reward contributes 0^β = 0 and a positive one a positive power. */
  lemma NonNegativeRewardsUtility(m: MathLib, agent: Agent, cid: int)
    requires Lawful(m) && Usable(agent, cid) && 0.0 < agent.beta
    requires 0.0 <= RewardOf(agent, cid).success && 0.0 <= RewardOf(agent, cid).failure
    ensures 0.0 <= ExpectedUtility(m, agent, cid).value
  {
    var w := RewardOf(agent, cid);
    var p := TemperedSuccess(m, agent, cid).value;
    var ps, pf := m.pow(w.success, agent.beta), m.pow(w.failure, agent.beta);
    assert 0.0 <= ps && 0.0 <= pf;
    assert 0.0 <= p * ps;
    assert 0.0 <= (1.0 - p) * pf;
  }

  /** Two distinct usable ids with non-negative rewards and beta > 0 (the
      default reward (1, 0) among them) give a posterior whose values are
      probabilities, the zero-total fallback ½ included. */
  lemma NonNegativeRewardsPosteriorInUnitRange(m: MathLib, agent: Agent, a: int, b: int)
    requires Lawful(m) && a != b && Usable(agent, a) && Usable(agent, b) && 0.0 < agent.beta
    requires 0.0 <= RewardOf(agent, a).success && 0.0 <= RewardOf(agent, a).failure
    requires 0.0 <= RewardOf(agent, b).success && 0.0 <= RewardOf(agent, b).failure
    ensures Posterior(m, agent, [a, b]).Ok?
    ensures |Posterior(m, agent, [a, b]).value| == 2
    ensures forall i :: 0 <= i < 2 ==> 0.0 <= Posterior(m, agent, [a, b]).value[i].prob <= 1.0
  {
    NonNegativeRewardsUtility(m, agent, a);
    NonNegativeRewardsUtility(m, agent, b);
    var ua, ub := ExpectedUtility(m, agent, a).value, ExpectedUtility(m, agent, b).value;
    var util := [Entry(a, ua), Entry(b, ub)];
    assert Utilities(m, agent, [a, b]) == Ok(util);
    assert Posterior(m, agent, [a, b]) == Ok(Normalise(util, 0.5));
    NormaliseTwoInUnitRange(util[0], util[1], 0.5);
  }

  /** Distinctness is not checked: the pair (a, a) gives the one-key
      posterior {a: 1.0}, or {a: 0.5} when a's utility is 0. */
  lemma RepeatedIdPosterior(m: MathLib, agent: Agent, a: int)
    requires Lawful(m) && Usable(agent, a)
    ensures Posterior(m, agent, [a, a]) ==
      Ok([Entry(a, if ExpectedUtility(m, agent, a).value == 0.0 then 0.5 else 1.0)])
  {
    var u := ExpectedUtility(m, agent, a).value;
    assert Utilities(m, agent, [a, a]) == Ok([Entry(a, u)]);
    assert 1.0 / |[a, a]| as real == 0.5;
    NormaliseOne(Entry(a, u), 0.5);
  }

  /** Two distinct ids with the same Gaussian and the same reward pair split
      the posterior evenly, whatever the other parameters. */
  lemma IdenticalCategoriesSplitEvenly(m: MathLib, agent: Agent, a: int, b: int)
    requires Lawful(m) && a != b && Usable(agent, a) && Usable(agent, b)
    requires agent.categories[a] == agent.categories[b]
    requires RewardOf(agent, a) == RewardOf(agent, b)
    ensures Posterior(m, agent, [a, b]) == Ok([Entry(a, 0.5), Entry(b, 0.5)])
  {
    var u := ExpectedUtility(m, agent, a).value;
    assert ExpectedUtility(m, agent, b).value == u;
    var util := [Entry(a, u), Entry(b, u)];
    assert Utilities(m, agent, [a, b]) == Ok(util);
    TotalOfTwo(util[0], util[1]);
    var post := Normalise(util, 0.5);
    assert |post| == 2 && post[0].key == a && post[1].key == b;
    if u + u != 0.0 {
      assert u / (u + u) == 0.5;
    }
    assert post[0].prob == 0.5 && post[1].prob == 0.5;
    assert post == [post[0], post[1]];
  }

  /** The index of the chosen entry: sampled when soft, else the arg-max. */
  function ChoiceIndex(post: seq<Entry>, soft: bool, draw: real): (k: nat)
    requires |post| > 0
    ensures soft ==> IsSampled(post, draw, k)
    ensures !soft ==> IsFirstMax(post, k)
  {
    if soft then SampleFrom(post, draw) else FirstMax(post)
  }

  /** choose(pair): the posterior, then the arg-max (first maximal key in
      pair order) or, when soft, the key the draw selects by cumulative sums;
      the confidence of the posterior is computed either way and its failure
      fails the call. */
  function Choose(m: MathLib, agent: Agent, pair: seq<int>, draw: real): (r: Result<Decision>)
    requires Lawful(m)
    ensures r.Ok? <==>
      Posterior(m, agent, pair).Ok? && Confidence(m.ln, agent.model, Posterior(m, agent, pair).value).Ok?
    ensures r.Ok? ==>
      var post := Posterior(m, agent, pair).value;
      && r.value.confidence == Confidence(m.ln, agent.model, post).value
      && r.value.choice in pair
      && (!agent.soft ==> exists k: nat :: IsFirstMax(post, k) && post[k].key == r.value.choice)
      && (agent.soft ==> exists k: nat :: IsSampled(post, draw, k) && post[k].key == r.value.choice)
  {
    var pr := Posterior(m, agent, pair);
    if pr.Err? then Err(pr.error)
    else
      var post := pr.value;
      assert |Keys(post)| == |PairKeys(pair)| > 0;
      var k := ChoiceIndex(post, agent.soft, draw);
      assert post[k].key == Keys(post)[k] == PairKeys(pair)[k];
      var cr := Confidence(m.ln, agent.model, post);
      if cr.Err? then Err(cr.error)
      else
        Ok(Decision(post[k].key, cr.value))
  }

  /** choose never succeeds on a repeated id: the one-key posterior makes
      every confidence metric fail. */
  lemma ChooseRejectsRepeatedId(m: MathLib, agent: Agent, a: int, draw: real)
    requires Lawful(m)
    ensures Choose(m, agent, [a, a], draw).Err?
  {
    var pair := [a, a];
    if Posterior(m, agent, pair).Ok? {
      var post := Posterior(m, agent, pair).value;
      assert |Keys(post)| == 1;
      SingleEntryRejected(m.ln, agent.model, post[0].key, post[0].prob);
      assert post == [Entry(post[0].key, post[0].prob)];
    }
  }

  /** choose succeeds exactly on pairs of two distinct usable ids. */
  lemma ChooseSucceedsExactly(m: MathLib, agent: Agent, pair: seq<int>, draw: real)
    requires Lawful(m)
    ensures Choose(m, agent, pair, draw).Ok? <==>
      |pair| == 2 && pair[0] != pair[1] && Usable(agent, pair[0]) && Usable(agent, pair[1])
  {
    if |pair| == 2 && pair[0] == pair[1] {
      ChooseRejectsRepeatedId(m, agent, pair[0], draw);
      assert pair == [pair[0], pair[0]];
    } else if |pair| == 2 && Posterior(m, agent, pair).Ok? {
      var post := Posterior(m, agent, pair).value;
      assert |Keys(post)| == 2;
      TwoEntriesAccepted(m.ln, agent.model, post[0].key, post[0].prob, post[1].key, post[1].prob);
      assert post == Pair(post[0].key, post[0].prob, post[1].key, post[1].prob);
    }
  }

  /** Two categories of equal spread under the default rewards, any beta > 0
      and alpha = 1: the one with the lower mean, more likely to fall below the
      threshold, gets the larger posterior value. */
  lemma LowerMeanFavoured(m: MathLib, agent: Agent, a: int, b: int)
    requires Lawful(m) && a != b
    requires a in agent.categories && b in agent.categories
    requires agent.categories[a].sigma == agent.categories[b].sigma > 0.0
    requires agent.categories[b].mu < agent.categories[a].mu
    requires a !in agent.rewards && b !in agent.rewards
    requires 0.0 < agent.beta && agent.alpha == 1.0
    ensures Posterior(m, agent, [a, b]).Ok?
    ensures |Posterior(m, agent, [a, b]).value| == 2
    ensures Posterior(m, agent, [a, b]).value[0].prob < Posterior(m, agent, [a, b]).value[1].prob
  {
    var ca, cb := agent.categories[a], agent.categories[b];
    CdfDecreasingInMean(m, agent.threshold, cb.mu, ca.mu, ca.sigma);
    DefaultRewardUtility(m, agent, a);
    DefaultRewardUtility(m, agent, b);
    var ua, ub := ExpectedUtility(m, agent, a).value, ExpectedUtility(m, agent, b).value;
    assert 0.0 <= ua < ub;
    var util := [Entry(a, ua), Entry(b, ub)];
    assert Utilities(m, agent, [a, b]) == Ok(util);
    TotalOfTwo(util[0], util[1]);
    var post := Posterior(m, agent, [a, b]).value;
    assert post == Normalise(util, 0.5);
    QuotientMonotone(ua, ub, ua + ub);
  }

  /** ... and arg-max choice picks it, whatever its position in the pair. */
  lemma LowerMeanIsChosen(m: MathLib, agent: Agent, a: int, b: int, draw: real)
    requires Lawful(m) && a != b && !agent.soft
    requires a in agent.categories && b in agent.categories
    requires agent.categories[a].sigma == agent.categories[b].sigma > 0.0
    requires agent.categories[b].mu < agent.categories[a].mu
    requires a !in agent.rewards && b !in agent.rewards
    requires 0.0 < agent.beta && agent.alpha == 1.0
    ensures Choose(m, agent, [a, b], draw).Ok?
    ensures Choose(m, agent, [a, b], draw).value.choice == b
  {
    LowerMeanFavoured(m, agent, a, b);
    ChooseSucceedsExactly(m, agent, [a, b], draw);
    var post := Posterior(m, agent, [a, b]).value;
    assert Keys(post) == [a, b];
    assert post[1].key == b;
  }

  /** With beta = 0 every utility is 1, so any two distinct usable ids get
      the posterior {a: ½, b: ½} whatever their Gaussians and rewards. */
  lemma BetaZeroPosteriorUniform(m: MathLib, agent: Agent, a: int, b: int)
    requires Lawful(m) && agent.beta == 0.0 && a != b && Usable(agent, a) && Usable(agent, b)
    ensures Posterior(m, agent, [a, b]) == Ok([Entry(a, 0.5), Entry(b, 0.5)])
  {
    BetaZeroUtilityIsOne(m, agent, a);
    BetaZeroUtilityIsOne(m, agent, b);
    var util := [Entry(a, 1.0), Entry(b, 1.0)];
    assert Utilities(m, agent, [a, b]) == Ok(util);
    TotalOfTwo(util[0], util[1]);
    var post := Normalise(util, 0.5);
    assert Posterior(m, agent, [a, b]) == Ok(post);
    assert post == [post[0], post[1]];
  }

  /** With soft choice, a draw no larger than the first posterior value
      selects the first id of the pair. */
  lemma SoftChoiceFirstWhenDrawBelow(m: MathLib, agent: Agent, pair: seq<int>, draw: real)
    requires Lawful(m) && agent.soft
    requires Choose(m, agent, pair, draw).Ok?
    requires draw <= Posterior(m, agent, pair).value[0].prob
    ensures Choose(m, agent, pair, draw).value.choice == pair[0]
  {
    var post := Posterior(m, agent, pair).value;
    SampleFirstWhenBelow(post, draw);
    SampledUnique(post, draw, 0);
    assert Keys(post)[0] == PairKeys(pair)[0] == pair[0];
  }
}

=== FILE: distribution.dfy ===
/** A Python dict from category id to float, kept in insertion order, and the
    generic operations the decision agent performs on it: summing its values,
    normalising it, taking the first arg-max and cumulative-sum sampling. */
module Distribution {

  /** One (key, value) item of an insertion-ordered dict. */
  datatype Entry = Entry(key: int, prob: real)

  function Keys(s: seq<Entry>): (ks: seq<int>)
    ensures |ks| == |s|
    ensures forall i :: 0 <= i < |s| ==> ks[i] == s[i].key
  {
    if |s| == 0 then [] else Keys(s[..|s| - 1]) + [s[|s| - 1].key]
  }

  /** sum(d.values()): starts at 0 and adds the values in insertion order. */
  function Total(s: seq<Entry>): real {
    if |s| == 0 then 0.0 else Total(s[..|s| - 1]) + s[|s| - 1].prob
  }

  /** Values that are all non-negative have a non-negative sum. */
  lemma {:induction false} TotalNonNegative(s: seq<Entry>)
    requires forall i :: 0 <= i < |s| ==> 0.0 <= s[i].prob
    ensures 0.0 <= Total(s)
  {
    if |s| > 0 {
      TotalNonNegative(s[..|s| - 1]);
    }
  }

  lemma TotalOfOne(x: Entry)
    ensures Total([x]) == x.prob
  {
    assert [x][..0] == [];
  }

  lemma TotalOfTwo(x: Entry, y: Entry)
    ensures Total([x, y]) == x.prob + y.prob
  {
    assert [x, y][..1] == [x];
    TotalOfOne(x);
  }

  /** The running sum after the entry at index j has been added. */
  function RunningSum(s: seq<Entry>, j: nat): real
    requires j < |s|
  {
    Total(s[..j + 1])
  }

  /** Every value divided by c, keys unchanged. */
  function Scale(s: seq<Entry>, c: real): (r: seq<Entry>)
    requires c != 0.0
    ensures |r| == |s|
    ensures forall i :: 0 <= i < |s| ==> r[i] == Entry(s[i].key, s[i].prob / c)
  {
    seq(|s|, i requires 0 <= i < |s| => Entry(s[i].key, s[i].prob / c))
  }

  /** Every key mapped to the same value v. */
  function Uniform(s: seq<Entry>, v: real): (r: seq<Entry>)
    ensures |r| == |s|
    ensures forall i :: 0 <= i < |s| ==> r[i] == Entry(s[i].key, v)
  {
    seq(|s|, i requires 0 <= i < |s| => Entry(s[i].key, v))
  }

  lemma {:induction false} TotalScale(s: seq<Entry>, c: real)
    requires c != 0.0
    ensures Total(Scale(s, c)) == Total(s) / c
  {
    if |s| > 0 {
      var s' := s[..|s| - 1];
      TotalScale(s', c);
      assert Scale(s, c)[..|s| - 1] == Scale(s', c);
      assert Total(s') / c + s[|s| - 1].prob / c == (Total(s') + s[|s| - 1].prob) / c;
    }
  }

  lemma KeysOfSameKeys(s: seq<Entry>, t: seq<Entry>)
    requires |s| == |t|
    requires forall i :: 0 <= i < |s| ==> s[i].key == t[i].key
    ensures Keys(s) == Keys(t)
  {
  }

  /** Division of every value by the total, or the uniform value u when the
      total is exactly 0. Keys and their order are kept; a nonzero total
      gives values that sum to 1 and are proportional to the inputs. */
  function Normalise(util: seq<Entry>, u: real): (r: seq<Entry>)
    ensures |r| == |util| && Keys(r) == Keys(util)
    ensures forall i :: 0 <= i < |r| ==> r[i].key == util[i].key
    ensures Total(util) == 0.0 ==> forall i :: 0 <= i < |r| ==> r[i].prob == u
    ensures Total(util) != 0.0 ==> Total(r) == 1.0
    ensures Total(util) != 0.0 ==>
      forall i :: 0 <= i < |r| ==> r[i].prob == util[i].prob / Total(util)
  {
    var total := Total(util);
    if total == 0.0 then
      var r := Uniform(util, u);
      KeysOfSameKeys(r, util);
      r
    else
      var r := Scale(util, total);
      KeysOfSameKeys(r, util);
      TotalScale(util, total);
      assert total / total == 1.0;
      r
  }

  /** A one-entry dict normalises to value 1, or to u when its value is 0. */
  lemma NormaliseOne(x: Entry, u: real)
    ensures Normalise([x], u) == [Entry(x.key, if x.prob == 0.0 then u else 1.0)]
  {
    TotalOfOne(x);
    var r := Normalise([x], u);
    if x.prob != 0.0 {
      assert x.prob / x.prob == 1.0;
    }
    assert r == [r[0]];
  }

  /** Normalising two non-negative values, with a fallback in [0, 1],
      gives two values in [0, 1]. */
  lemma NormaliseTwoInUnitRange(x: Entry, y: Entry, u: real)
    requires 0.0 <= x.prob && 0.0 <= y.prob && 0.0 <= u <= 1.0
    ensures |Normalise([x, y], u)| == 2
    ensures forall i :: 0 <= i < 2 ==> 0.0 <= Normalise([x, y], u)[i].prob <= 1.0
  {
    TotalOfTwo(x, y);
    var total := x.prob + y.prob;
    var r := Normalise([x, y], u);
    if total != 0.0 {
      assert r[0].prob == x.prob / total && r[1].prob == y.prob / total;
      assert 0.0 < total;
      assert x.prob / total + y.prob / total == total / total == 1.0;
    }
  }

  /** k holds a maximal value and every entry before it a strictly smaller one. */
  ghost predicate IsFirstMax(s: seq<Entry>, k: nat) {
    && k < |s|
    && (forall j :: 0 <= j < |s| ==> s[j].prob <= s[k].prob)
    && (forall j :: 0 <= j < k ==> s[j].prob < s[k].prob)
  }

  /** k is the first entry whose running sum reaches the draw, or the last
      entry when none does. */
  ghost predicate IsSampled(s: seq<Entry>, draw: real, k: nat) {
    && k < |s|
    && (forall j :: 0 <= j < k ==> RunningSum(s, j) < draw)
    && (k < |s| - 1 ==> draw <= RunningSum(s, k))
  }

  /** Index of the entry max(d, key=d.get) returns: Python keeps the current
      best and replaces it only by a strictly larger value, so this is the
      first index holding the maximal value. */
  function FirstMax(s: seq<Entry>): (k: nat)
    requires |s| > 0
    ensures IsFirstMax(s, k)
  {
    if |s| == 1 then 0
    else
      var k := FirstMax(s[..|s| - 1]);
      if s[k].prob < s[|s| - 1].prob then |s| - 1 else k
  }

  /** The loop of cumulative-sum sampling from index i on, acc being the
      running sum of the entries before i. It stops at the first entry whose
      running sum reaches the draw, and falls back to the last entry. */
  function SampleScan(s: seq<Entry>, draw: real, acc: real, i: nat): (k: nat)
    requires i < |s| && acc == Total(s[..i])
    decreases |s| - i
    ensures i <= k < |s|
    ensures forall j :: i <= j < k ==> RunningSum(s, j) < draw
    ensures k < |s| - 1 ==> draw <= RunningSum(s, k)
  {
    assert s[..i + 1][..i] == s[..i];
    var acc' := acc + s[i].prob;
    if draw <= acc' || i == |s| - 1 then i
    else SampleScan(s, draw, acc', i + 1)
  }

  /** Index of the entry _sample_from returns for the draw r: the first whose
      running sum is at least r, or the last entry when there is none. */
  function SampleFrom(s: seq<Entry>, draw: real): (k: nat)
    requires |s| > 0
    ensures IsSampled(s, draw, k)
  {
    SampleScan(s, draw, 0.0, 0)
  }

  /** A draw no larger than the first value selects the first entry. */
  lemma SampleFirstWhenBelow(s: seq<Entry>, draw: real)
    requires |s| > 0 && draw <= s[0].prob
    ensures SampleFrom(s, draw) == 0
  {
    var first := s[..1];
    assert first[..|first| - 1] == [] && first[|first| - 1] == s[0];
    assert RunningSum(s, 0) == Total(first) == s[0].prob;
  }

  /** When the draw is at most the total, the fallback is never the reason
      an entry is returned: the returned entry's running sum reaches it. */
  lemma SampleReachesDraw(s: seq<Entry>, draw: real)
    requires |s| > 0 && draw <= Total(s)
    ensures draw <= RunningSum(s, SampleFrom(s, draw))
  {
    assert s[..|s|] == s;
  }

  /** The first maximum and the sampled entry are unique: any index with the
      defining property is the one the functions return. */
  lemma FirstMaxUnique(s: seq<Entry>, k: nat)
    requires IsFirstMax(s, k)
    ensures FirstMax(s) == k
  {
  }

  lemma SampledUnique(s: seq<Entry>, draw: real, k: nat)
    requires IsSampled(s, draw, k)
    ensures SampleFrom(s, draw) == k
  {
  }
}

=== FILE: dprime_session.dfy ===
/** compute_dprime of the per-session d′ script: the same computation as the
    sensitivity script's, written out again in its own file. */
module DPrimeSession {
  import opened RealMath
  import opened ZScore
  import opened TrialCounts
  import SensitivityFits

  /** d′ = z(hits / n_signal) − z(false_alarms / n_noise), each rate ½ when
      its denominator is 0. */
  function DPrime(ppf: real -> real, g: seq<Trial>): (r: real)
    ensures PpfLaws(ppf) && CountStimulus(g, 1) == 0 && CountStimulus(g, 0) == 0 ==> r == 0.0
  {
    var hits := CountOutcome(g, 1, 1);
    var nSignal := CountStimulus(g, 1);
    var falseAlarms := CountOutcome(g, 0, 1);
    var nNoise := CountStimulus(g, 0);
    var pHit := if 0 < nSignal then hits as real / nSignal as real else 0.5;
    var pFa := if 0 < nNoise then falseAlarms as real / nNoise as real else 0.5;
    var zHit := ZTransform(ppf, pHit, nSignal, DefaultCorrection).value;
    var zFa := ZTransform(ppf, pFa, nNoise, DefaultCorrection).value;
    zHit - zFa
  }

  /** The two scripts agree on every group. */
  lemma AgreesWithSensitivityFits(ppf: real -> real, g: seq<Trial>)
    ensures DPrime(ppf, g) == SensitivityFits.DPrime(ppf, g)
  {
  }
}

=== FILE: gaussian.dfy ===
/** The Gaussian success model: a category is a univariate Gaussian, and its
    success probability at a threshold T is P[X < T] = Φ((T − μ)/σ). */
module Gaussian {
  import opened Results
  import opened RealMath

  /** A category's latent signal, N(mu, sigma²). Nothing stops a caller from
      building one with sigma <= 0; the CDF rejects it when it is used. */
  datatype Category = Category(mu: real, sigma: real)

  ghost predicate CdfLaws(m: MathLib) {
    ErfLaws(m.erf) && SqrtLaws(m.sqrt)
  }

  /** The standardised erf argument (t − mu) / (sigma·√2). */
  function ErfArgument(m: MathLib, t: real, mu: real, sigma: real): real
    requires SqrtLaws(m.sqrt) && 0.0 < sigma
  {
    assert 0.0 < sigma * m.sqrt(2.0);
    (t - mu) / (sigma * m.sqrt(2.0))
  }

  /** Φ((t − mu)/sigma) = ½·(1 + erf((t − mu)/(sigma·√2))); fails exactly when
      sigma is not positive, lies in [0, 1], and is ½ at the mean. */
  function GaussianCdf(m: MathLib, t: real, mu: real, sigma: real): (r: Result<real>)
    requires CdfLaws(m)
    ensures r.Err? <==> sigma <= 0.0
    ensures r.Err? ==> r.error == InvalidSigma
    ensures r.Ok? ==> 0.0 <= r.value <= 1.0
    ensures 0.0 < sigma && t == mu ==> r == Ok(0.5)
  {
    if sigma <= 0.0 then Err(InvalidSigma)
    else Ok(0.5 * (1.0 + m.erf(ErfArgument(m, t, mu, sigma))))
  }

  /** P[X < threshold] for a draw X from the category. */
  function SuccessProb(m: MathLib, c: Category, threshold: real): (r: Result<real>)
    requires CdfLaws(m)
    ensures r.Err? <==> c.sigma <= 0.0
    ensures r.Ok? ==> 0.0 <= r.value <= 1.0
    ensures 0.0 < c.sigma && threshold == c.mu ==> r == Ok(0.5)
  {
    GaussianCdf(m, threshold, c.mu, c.sigma)
  }

  lemma QuotientMonotone(a: real, b: real, k: real)
    requires 0.0 < k && a < b
    ensures a / k < b / k
  {
    assert b / k - a / k == (b - a) / k;
  }

  /** Raising the threshold strictly raises the success probability. */
  lemma CdfIncreasing(m: MathLib, t1: real, t2: real, mu: real, sigma: real)
    requires CdfLaws(m) && 0.0 < sigma && t1 < t2
    ensures GaussianCdf(m, t1, mu, sigma).value < GaussianCdf(m, t2, mu, sigma).value
  {
    assert 0.0 < sigma * m.sqrt(2.0);
    QuotientMonotone(t1 - mu, t2 - mu, sigma * m.sqrt(2.0));
  }

  /** Moving the mean up at a fixed threshold strictly lowers the success
      probability. */
  lemma CdfDecreasingInMean(m: MathLib, t: real, mu1: real, mu2: real, sigma: real)
    requires CdfLaws(m) && 0.0 < sigma && mu1 < mu2
    ensures GaussianCdf(m, t, mu2, sigma).value < GaussianCdf(m, t, mu1, sigma).value
  {
    assert 0.0 < sigma * m.sqrt(2.0);
    QuotientMonotone(t - mu2, t - mu1, sigma * m.sqrt(2.0));
  }

  /** Thresholds mirrored about the mean split the probability mass:
      Φ(−z) + Φ(z) = 1. */
  lemma CdfMirror(m: MathLib, mu: real, sigma: real, d: real)
    requires CdfLaws(m) && 0.0 < sigma
    ensures GaussianCdf(m, mu - d, mu, sigma).value + GaussianCdf(m, mu + d, mu, sigma).value == 1.0
  {
    var k := sigma * m.sqrt(2.0);
    assert 0.0 < k;
    assert ErfArgument(m, mu - d, mu, sigma) == -ErfArgument(m, mu + d, mu, sigma) by {
      assert (mu - d - mu) / k == -((mu + d - mu) / k);
    }
  }
}

=== FILE: meta_dprime_session.dfy ===
/** compute_meta_dprime of the per-session meta-d′ script. It differs from
    the sensitivity script's in the code that marks a high-confidence report
    (2 here, 1 there) and in how the four z-scores are grouped. */
module MetaDPrimeSession {
  import opened RealMath
  import opened TrialCounts
  import SensitivityFits

  /** The r2 code this script counts as high confidence. */
  const HighConfidence: int := 2

  /** meta-d′ = ½·((z(H) − z(M)) + (z(CR) − z(FA))) over the high-confidence
      shares of each outcome cell. A group without
      trials coded 0/1 on stimulus and response gives 0. */
  function MetaDPrime(ppf: real -> real, g: seq<Trial>): (r: real)
    ensures PpfLaws(ppf) && CountBinary(g) == 0 ==> r == 0.0
  {
    var c := CountMeta(g, HighConfidence);
    var zCR := SensitivityFits.ConditionalZ(ppf, c.pA, c.nCR);
    var zM := SensitivityFits.ConditionalZ(ppf, c.pB, c.nM);
    var zFA := SensitivityFits.ConditionalZ(ppf, c.pC, c.nFA);
    var zH := SensitivityFits.ConditionalZ(ppf, c.pD, c.nH);
    0.5 * ((zH - zM) + (zCR - zFA))
  }

  /** The scripts differ only in the high-confidence code: this one on a
      group equals the sensitivity script's on the same group with codes 1
      and 2 exchanged, the two groupings of z-scores being equal. */
  lemma MatchesSensitivityFitsWithCodesSwapped(ppf: real -> real, g: seq<Trial>)
    ensures MetaDPrime(ppf, g) == SensitivityFits.MetaDPrime(ppf, SwapConfidenceCodes(g))
  {
    SwapExchangesMetaCounts(g);
  }
}

=== FILE: real_math.dfy ===
/** The transcendental functions the source calls (math.erf, math.sqrt, the
    `**` operator, math.log and scipy's norm.ppf) are not given a definition.
    Each is a parameter of the operations that use it, and the ghost
    predicates below state the only facts about them that the proofs rely on.
    All of them are true of the mathematical functions. */
module RealMath {

  /** The functions the decision agent needs from Python's `math` module. */
  datatype MathLib = MathLib(
    erf: real -> real,
    sqrt: real -> real,
    pow: (real, real) -> real,
    ln: real -> real
  )

  /** erf(0) = 0, erf is odd, strictly increasing and ranges over [-1, 1]. */
  ghost predicate ErfLaws(erf: real -> real) {
    && erf(0.0) == 0.0
    && (forall x :: -1.0 <= erf(x) <= 1.0)
    && (forall x :: erf(-x) == -erf(x))
    && (forall x, y :: x < y ==> erf(x) < erf(y))
  }

  /** The square root of a positive number is positive. */
  ghost predicate SqrtLaws(sqrt: real -> real) {
    forall x :: 0.0 < x ==> 0.0 < sqrt(x)
  }

  /** x ** 1 == x, x ** 0 == 1, 1 ** y == 1, 0 ** y == 0 for y > 0, and a
      positive base gives a positive power. */
  ghost predicate PowLaws(pow: (real, real) -> real) {
    && (forall x :: pow(x, 1.0) == x)
    && (forall x :: pow(x, 0.0) == 1.0)
    && (forall y :: pow(1.0, y) == 1.0)
    && (forall y :: 0.0 < y ==> pow(0.0, y) == 0.0)
    && (forall x, y :: 0.0 < x ==> 0.0 < pow(x, y))
  }

  /** ln 1 = 0, ln(1/2) = -ln 2, and ln 2 is positive. */
  ghost predicate LnLaws(ln: real -> real) {
    && ln(1.0) == 0.0
    && ln(0.5) == -ln(2.0)
    && 0.0 < ln(2.0)
  }

  /** The inverse standard-normal CDF maps 1/2 to 0. */
  ghost predicate PpfLaws(ppf: real -> real) {
    ppf(0.5) == 0.0
  }

  /** norm.ppf is strictly increasing on the open unit interval. */
  ghost predicate PpfIncreasing(ppf: real -> real) {
    forall x, y :: 0.0 < x < y < 1.0 ==> ppf(x) < ppf(y)
  }

  ghost predicate Lawful(m: MathLib) {
    ErfLaws(m.erf) && SqrtLaws(m.sqrt) && PowLaws(m.pow) && LnLaws(m.ln)
  }

  /** x / (1 + |x|): odd, strictly increasing and bounded by 1 in size. */
  function Squash(x: real): (r: real)
    ensures -1.0 < r < 1.0
  {
    if x < 0.0 then x / (1.0 - x) else x / (1.0 + x)
  }

  lemma QuotientLess(a: real, b: real, c: real, d: real)
    requires 0.0 < b && 0.0 < d && a * d < c * b
    ensures a / b < c / d
  {
    assert a / b == (a * d) / (b * d);
    assert c / d == (c * b) / (b * d);
  }

  lemma SquashIncreasing(x: real, y: real)
    requires x < y
    ensures Squash(x) < Squash(y)
  {
    if 0.0 <= x {
      QuotientLess(x, 1.0 + x, y, 1.0 + y);
    } else if y < 0.0 {
      QuotientLess(x, 1.0 - x, y, 1.0 - y);
    } else {
      assert Squash(x) < 0.0 <= Squash(y);
    }
  }

  /** A crude but lawful stand-in for the real functions: it shows that the
      laws above can all hold at once, so no proof rests on facts that
      contradict each other. */
  function StandIn(): MathLib {
    MathLib(
      Squash,
      x => if 0.0 < x then x else 0.0,
      (x, y) => if y == 0.0 then 1.0 else x,
      x => if x == 1.0 then 0.0 else if x == 2.0 then 1.0 else if x == 0.5 then -1.0 else 0.0
    )
  }

  lemma SquashIsErfLike()
    ensures ErfLaws(Squash)
  {
    forall x, y | x < y
      ensures Squash(x) < Squash(y)
    {
      SquashIncreasing(x, y);
    }
    forall x
      ensures Squash(-x) == -Squash(x)
    {
      if x < 0.0 {
        assert -x / (1.0 + -x) == -(x / (1.0 - x));
      } else if 0.0 < x {
        assert -x / (1.0 - -x) == -(x / (1.0 + x));
      }
    }
  }

  lemma StandInIsLawful()
    ensures Lawful(StandIn())
  {
    SquashIsErfLike();
    var m := StandIn();
    assert SqrtLaws(m.sqrt);
    assert PowLaws(m.pow);
    assert LnLaws(m.ln);
  }

  /** A stand-in for norm.ppf: the shift x − ½ satisfies both ppf laws. */
  function PpfStandIn(x: real): real {
    x - 0.5
  }

  lemma PpfStandInIsLawful()
    ensures PpfLaws(PpfStandIn) && PpfIncreasing(PpfStandIn)
  {
  }
}

=== FILE: results.dfy ===
/** Failure-compatible result type shared by every module of the model.
    The source signals failure by raising Python exceptions; each exception
    kind the modelled code can raise becomes one constructor of `Error`. */
module Results {

  datatype Error =
    | InvalidModel      // ValueError: confidence model tag not recognised
    | InvalidSigma      // ValueError: a Gaussian with sigma <= 0
    | UnknownCategory   // KeyError: category id missing from the registry
    | InvalidPair       // ValueError: a decision pair whose length is not 2
    | ZeroDivision      // ZeroDivisionError: a float division by exactly 0
    | IndexOutOfRange   // IndexError: reading past the end of a list
    | EmptySequence     // ValueError: max() of an empty sequence
    | MathDomain        // ValueError: math.log of 0

  datatype Result<+T> = Ok(value: T) | Err(error: Error) {

    predicate IsFailure() {
      Err?
    }

    function PropagateFailure<U>(): Result<U>
      requires Err?
    {
      Err(error)
    }

    function Extract(): T
      requires Ok?
    {
      value
    }
  }
}

=== FILE: sensitivity_fits.dfy ===
/** compute_dprime and compute_meta_dprime of the sensitivity script, on one
    group of trials. Its meta-d′ counts the trials with r2 == 1 as the
    high-confidence ones, although the function's own docstring codes
    confidence as 1 (low) or 2 (high); the model follows the code. */
module SensitivityFits {
  import opened RealMath
  import opened ZScore
  import opened TrialCounts

  /** The r2 code this script's meta-d′ counts as high confidence: 1, the
      code its docstring calls low. */
  const HighConfidence: int := 1

  /** hits / n_signal, or ½ without signal trials. */
  function HitRate(g: seq<Trial>): (p: real)
    ensures 0.0 <= p <= 1.0
    ensures CountStimulus(g, 1) == 0 ==> p == 0.5
  {
    Rate(CountOutcome(g, 1, 1), CountStimulus(g, 1))
  }

  /** false_alarms / n_noise, or ½ without noise trials. */
  function FalseAlarmRate(g: seq<Trial>): (p: real)
    ensures 0.0 <= p <= 1.0
    ensures CountStimulus(g, 0) == 0 ==> p == 0.5
  {
    Rate(CountOutcome(g, 0, 1), CountStimulus(g, 0))
  }

  /** Neither z_transform call of compute_dprime divides by zero: an empty
      denominator gives rate ½, which is passed through without dividing. */
  lemma DPrimeTransformsSucceed(ppf: real -> real, g: seq<Trial>)
    ensures ZTransform(ppf, HitRate(g), CountStimulus(g, 1), DefaultCorrection).Ok?
    ensures ZTransform(ppf, FalseAlarmRate(g), CountStimulus(g, 0), DefaultCorrection).Ok?
  {
  }

  /** d′ = z(hit rate) − z(false-alarm rate); a group with neither signal nor
      noise trials gives 0. */
  function DPrime(ppf: real -> real, g: seq<Trial>): (r: real)
    ensures PpfLaws(ppf) && CountStimulus(g, 1) == 0 && CountStimulus(g, 0) == 0 ==> r == 0.0
  {
    var zHit := ZTransform(ppf, HitRate(g), CountStimulus(g, 1), DefaultCorrection).value;
    var zFa := ZTransform(ppf, FalseAlarmRate(g), CountStimulus(g, 0), DefaultCorrection).value;
    zHit - zFa
  }

  /** Both values handed to norm.ppf lie strictly inside (0, 1). */
  lemma DPrimeArgumentsInside(g: seq<Trial>)
    ensures 0.0 < PpfArgument(HitRate(g), CountStimulus(g, 1), DefaultCorrection).value < 1.0
    ensures 0.0 < PpfArgument(FalseAlarmRate(g), CountStimulus(g, 0), DefaultCorrection).value < 1.0
  {
    RateArgumentInside(CountOutcome(g, 1, 1), CountStimulus(g, 1));
    RateArgumentInside(CountOutcome(g, 0, 1), CountStimulus(g, 0));
  }

  /** d′ is positive exactly when the clamped hit rate exceeds the clamped
      false-alarm rate, and zero exactly when they coincide. */
  lemma DPrimeSign(ppf: real -> real, g: seq<Trial>)
    requires PpfIncreasing(ppf)
    ensures var hit := PpfArgument(HitRate(g), CountStimulus(g, 1), DefaultCorrection).value;
            var fa := PpfArgument(FalseAlarmRate(g), CountStimulus(g, 0), DefaultCorrection).value;
            (0.0 < DPrime(ppf, g) <==> fa < hit) && (DPrime(ppf, g) == 0.0 <==> fa == hit)
  {
    DPrimeArgumentsInside(g);
    var hit := PpfArgument(HitRate(g), CountStimulus(g, 1), DefaultCorrection).value;
    var fa := PpfArgument(FalseAlarmRate(g), CountStimulus(g, 0), DefaultCorrection).value;
    if fa < hit {
      assert ppf(fa) < ppf(hit);
    } else if hit < fa {
      assert ppf(hit) < ppf(fa);
    }
  }

  /** Away from the clamped extremes, d′ orders the two observed rates: it
      is positive exactly when hits are more frequent than false alarms. */
  lemma DPrimeFollowsRates(ppf: real -> real, g: seq<Trial>)
    requires PpfIncreasing(ppf)
    requires 0.0 < HitRate(g) < 1.0 && 0.0 < FalseAlarmRate(g) < 1.0
    ensures 0.0 < DPrime(ppf, g) <==> FalseAlarmRate(g) < HitRate(g)
    ensures DPrime(ppf, g) == 0.0 <==> FalseAlarmRate(g) == HitRate(g)
  {
    DPrimeSign(ppf, g);
  }

  /** A rate k / n with the ½ fallback never makes z_transform divide by
      zero, and the value it hands to norm.ppf lies strictly inside (0, 1):
      either n >= 1, or the rate is ½ and passes through unchanged. */
  lemma RateArgumentInside(k: nat, n: nat)
    requires k <= n
    ensures PpfArgument(Rate(k, n), n, DefaultCorrection).Ok?
    ensures 0.0 < PpfArgument(Rate(k, n), n, DefaultCorrection).value < 1.0
  {
    if 0 < n {
      DefaultCorrectionInside(Rate(k, n), n);
    }
  }

  /** z_transform of the conditional rate k / n (½ when n is 0); an empty
      cell gives 0. */
  function ConditionalZ(ppf: real -> real, k: nat, n: nat): (r: real)
    requires k <= n
    ensures PpfLaws(ppf) && n == 0 ==> r == 0.0
  {
    RateArgumentInside(k, n);
    ZTransform(ppf, Rate(k, n), n, DefaultCorrection).value
  }

  /** meta-d′ = ½·((z(CR) − z(M)) + (z(H) − z(FA))) over the shares of each
      outcome cell reported with r2 == 1 (called high confidence in the
      code's comments, low in its docstring) of each outcome cell. A group without
      trials coded 0/1 on stimulus and response gives 0. */
  function MetaDPrime(ppf: real -> real, g: seq<Trial>): (r: real)
    ensures PpfLaws(ppf) && CountBinary(g) == 0 ==> r == 0.0
  {
    var c := CountMeta(g, HighConfidence);
    var zCR := ConditionalZ(ppf, c.pA, c.nCR);
    var zM := ConditionalZ(ppf, c.pB, c.nM);
    var zFA := ConditionalZ(ppf, c.pC, c.nFA);
    var zH := ConditionalZ(ppf, c.pD, c.nH);
    0.5 * ((zCR - zM) + (zH - zFA))
  }
}

=== FILE: trial_counts.dfy ===
/** The counting and rate computations shared by the d′ and meta-d′ scripts.
    A group of trials (one subject in one session) is a sequence of
    (stimulus, r1, r2) triples: stimulus 0 is noise (left) and 1 signal
    (right), r1 the binary response, r2 the confidence code. Each count is
    the `.sum()` of a boolean mask over the group. */
module TrialCounts {

  datatype Trial = Trial(stimulus: int, r1: int, r2: int)

  /** (stim == s).sum() */
  function CountStimulus(g: seq<Trial>, s: int): (c: nat)
    ensures c <= |g|
  {
    if |g| == 0 then 0
    else (if g[0].stimulus == s then 1 else 0) + CountStimulus(g[1..], s)
  }

  /** ((stim == s) & (resp == resp)).sum(): never more than the trials with
      that stimulus. */
  function CountOutcome(g: seq<Trial>, s: int, resp: int): (c: nat)
    ensures c <= CountStimulus(g, s)
  {
    if |g| == 0 then 0
    else (if g[0].stimulus == s && g[0].r1 == resp then 1 else 0) + CountOutcome(g[1..], s, resp)
  }

  /** ((stim == s) & (resp == resp) & (conf == code)).sum(): never more than
      the trials with that stimulus and response. */
  function CountConfident(g: seq<Trial>, s: int, resp: int, code: int): (c: nat)
    ensures c <= CountOutcome(g, s, resp)
  {
    if |g| == 0 then 0
    else
      (if g[0].stimulus == s && g[0].r1 == resp && g[0].r2 == code then 1 else 0)
      + CountConfident(g[1..], s, resp, code)
  }

  /** A trial whose stimulus and response are both coded 0 or 1. */
  predicate IsBinary(t: Trial) {
    (t.stimulus == 0 || t.stimulus == 1) && (t.r1 == 0 || t.r1 == 1)
  }

  function CountBinary(g: seq<Trial>): (c: nat)
    ensures c <= |g|
  {
    if |g| == 0 then 0 else (if IsBinary(g[0]) then 1 else 0) + CountBinary(g[1..])
  }

  /** `k / n if n > 0 else 0.5`: the observed proportion, or chance when
      there is nothing to divide by. */
  function Rate(k: nat, n: nat): (r: real)
    requires k <= n
    ensures n == 0 ==> r == 0.5
    ensures 0.0 <= r <= 1.0
    ensures 0 < n ==> r * n as real == k as real
    ensures 0 < n ==> (r == 0.0 <==> k == 0) && (r == 1.0 <==> k == n)
  {
    if 0 < n then
      var r := k as real / n as real;
      assert r <= 1.0 by {
        assert k as real / n as real <= n as real / n as real;
      }
      r
    else 0.5
  }

  /** The four stimulus/response outcome cells (correct rejections, misses,
      false alarms, hits) partition the trials coded 0/1 on both. */
  lemma {:induction false} OutcomesPartitionBinaryTrials(g: seq<Trial>)
    ensures CountOutcome(g, 0, 0) + CountOutcome(g, 1, 0) + CountOutcome(g, 0, 1) + CountOutcome(g, 1, 1)
            == CountBinary(g)
  {
    if |g| > 0 {
      OutcomesPartitionBinaryTrials(g[1..]);
    }
  }

  /** The counts meta-d′ is computed from: per outcome cell, the trials
      reported with the high-confidence code and all trials. */
  datatype MetaCounts = MetaCounts(
    pA: nat, pB: nat, pC: nat, pD: nat,   // high confidence: CR, miss, FA, hit
    nCR: nat, nM: nat, nFA: nat, nH: nat  // all trials: CR, miss, FA, hit
  )

  function CountMeta(g: seq<Trial>, high: int): (c: MetaCounts)
    ensures c.pA <= c.nCR && c.pB <= c.nM && c.pC <= c.nFA && c.pD <= c.nH
    ensures c.nCR + c.nM + c.nFA + c.nH == CountBinary(g)
  {
    OutcomesPartitionBinaryTrials(g);
    MetaCounts(
      CountConfident(g, 0, 0, high), CountConfident(g, 1, 0, high),
      CountConfident(g, 0, 1, high), CountConfident(g, 1, 1, high),
      CountOutcome(g, 0, 0), CountOutcome(g, 1, 0),
      CountOutcome(g, 0, 1), CountOutcome(g, 1, 1))
  }

  /** Exchange of the confidence codes 1 and 2 on every trial. */
  function SwapCode(code: int): int {
    if code == 1 then 2 else if code == 2 then 1 else code
  }

  function SwapConfidenceCodes(g: seq<Trial>): (h: seq<Trial>)
    ensures |h| == |g|
    ensures forall i :: 0 <= i < |g| ==> h[i] == Trial(g[i].stimulus, g[i].r1, SwapCode(g[i].r2))
  {
    seq(|g|, i requires 0 <= i < |g| => Trial(g[i].stimulus, g[i].r1, SwapCode(g[i].r2)))
  }

  lemma {:induction false} SwapKeepsOutcomes(g: seq<Trial>, s: int, resp: int)
    ensures CountOutcome(SwapConfidenceCodes(g), s, resp) == CountOutcome(g, s, resp)
  {
    if |g| > 0 {
      assert SwapConfidenceCodes(g)[1..] == SwapConfidenceCodes(g[1..]);
      SwapKeepsOutcomes(g[1..], s, resp);
    }
  }

  lemma {:induction false} SwapExchangesCodes(g: seq<Trial>, s: int, resp: int, code: int)
    ensures CountConfident(SwapConfidenceCodes(g), s, resp, SwapCode(code)) == CountConfident(g, s, resp, code)
  {
    if |g| > 0 {
      assert SwapConfidenceCodes(g)[1..] == SwapConfidenceCodes(g[1..]);
      SwapExchangesCodes(g[1..], s, resp, code);
    }
  }

  /** Counting with high code 1 on the relabelled group is counting with
      high code 2 on the original. */
  lemma SwapExchangesMetaCounts(g: seq<Trial>)
    ensures CountMeta(SwapConfidenceCodes(g), 1) == CountMeta(g, 2)
  {
    var h := SwapConfidenceCodes(g);
    SwapKeepsOutcomes(g, 0, 0);
    SwapKeepsOutcomes(g, 1, 0);
    SwapKeepsOutcomes(g, 0, 1);
    SwapKeepsOutcomes(g, 1, 1);
    SwapExchangesCodes(g, 0, 0, 2);
    SwapExchangesCodes(g, 1, 0, 2);
    SwapExchangesCodes(g, 0, 1, 2);
    SwapExchangesCodes(g, 1, 1, 2);
  }
}

=== FILE: z_score.dfy ===
/** z_transform: the inverse-normal transform of an observed rate, with rates
    of exactly 0 or 1 moved inwards by correction/n first so that norm.ppf
    stays finite. */
module ZScore {
  import opened Results
  import opened RealMath

  /** The correction the callers use (the parameter's default). */
  const DefaultCorrection: real := 0.5

  /** The value handed to norm.ppf: 1 − correction/n for p = 1, correction/n
      for p = 0, p itself otherwise. Only the two clamped cases divide by n,
      so only they fail when n is 0. */
  function PpfArgument(p: real, n: nat, correction: real): (r: Result<real>)
    ensures r.Err? <==> n == 0 && (p == 0.0 || p == 1.0)
    ensures r.Err? ==> r.error == ZeroDivision
    ensures p == 1.0 && n != 0 ==> r == Ok(1.0 - correction / n as real)
    ensures p == 0.0 && n != 0 ==> r == Ok(correction / n as real)
    ensures p != 0.0 && p != 1.0 ==> r == Ok(p)
  {
    if p == 1.0 then
      if n == 0 then Err(ZeroDivision) else Ok(1.0 - correction / n as real)
    else if p == 0.0 then
      if n == 0 then Err(ZeroDivision) else Ok(correction / n as real)
    else Ok(p)
  }

  /** norm.ppf of the clamped rate. */
  function ZTransform(ppf: real -> real, p: real, n: nat, correction: real): (r: Result<real>)
    ensures r.Ok? <==> PpfArgument(p, n, correction).Ok?
    ensures r.Ok? ==> r.value == ppf(PpfArgument(p, n, correction).value)
  {
    var q :- PpfArgument(p, n, correction);
    Ok(ppf(q))
  }

  /** For a rate in [0, 1] over n >= 1 trials and a correction strictly
      between 0 and n, the value handed to norm.ppf lies strictly inside
      (0, 1), so the z-score is finite. */
  lemma PpfArgumentInside(p: real, n: nat, correction: real)
    requires 0.0 <= p <= 1.0 && 1 <= n
    requires 0.0 < correction < n as real
    ensures PpfArgument(p, n, correction).Ok?
    ensures 0.0 < PpfArgument(p, n, correction).value < 1.0
  {
    var k := n as real;
    assert 0.0 < correction / k < 1.0 by {
      assert correction / k < k / k;
    }
  }

  /** With the default correction, one trial already suffices. */
  lemma DefaultCorrectionInside(p: real, n: nat)
    requires 0.0 <= p <= 1.0 && 1 <= n
    ensures 0.0 < PpfArgument(p, n, DefaultCorrection).value < 1.0
  {
    PpfArgumentInside(p, n, DefaultCorrection);
  }

  /** The chance rate ½ passes through unchanged, whatever n, and its
      z-score is 0. */
  lemma ChanceRateIsZero(ppf: real -> real, n: nat)
    requires PpfLaws(ppf)
    ensures ZTransform(ppf, 0.5, n, DefaultCorrection) == Ok(0.0)
  {
  }
}
